=== FILE: README.md ===
# MedApp client rules in Dafny

This project models the small pure decision rules in the MedApp mobile client
(a React Native app for booking medical appointments), and proves properties
about them:

- the three validators in `utils/validations.ts`:
  `validateEmail`, `validatePassword` and `validatePhone`. Each one tests its
  argument against a single anchored JavaScript regular expression that has
  no `g` flag. Each validator is modelled twice: once as a character-level
  predicate that runs the pattern the way a matcher would, and once as a
  declarative description of the accepted strings. The two are proved equal
  for every input. The character classes (`\s`, `\d`, `\W`, `.`) are explicit
  sets, taken from sections 12.2, 12.3 and 22.2 of ECMA-262 for patterns
  without the `u`, `i`, `m` and `s` flags;
- the swipe-release handler that both cards carry in identical form. A release offset
  past +100 confirms, one past -100 cancels, and the card always springs
  back to (0, 0);
- the status bar of the patient card (`AppointmentCard`) and of the doctor
  card (`AppointmentCardDoc`), and the doctor card's stand-in patient record;
- the disagreement between the two status bars.

Modules: `CharClasses` (the character sets), `Email`, `Password`, `Phone`
(the validators), `RegExpTest` (the RegExp object's `lastIndex` state and
why the validators are pure), `Swipe`, `AppointmentCard`,
`AppointmentCardDoc`, `CardComparison`, and `Wrappers` (`Option`).

The email predicate is a deterministic automaton. It is built from the
pattern `^[^\s@]+@[^\s@]+\.[^\s@]+$` by the subset construction. `'.'` is
itself in `[^\s@]`, so the domain needs four states. `Email.Describes` says
what reaching each state means for the prefix read so far. The proof shows
that each step keeps that meaning (`Email.StepDescribes`), and that the
meaning decides acceptance at the end (`Email.DescribesDecides`).

## Model

| member | source | states |
|---|---|---|
| `Email.ValidateEmail` | utils/validations.ts:1-4 | the automaton accepts exactly the strings made of a non-empty local part with no `\s` and no '@', one '@', and a domain with no `\s` and no '@' that has a '.' which is neither its first nor its last character |
| `Email.RunDescribes` | utils/validations.ts:2 | after reading any input, the automaton's state has the meaning `Describes` gives it |
| `Email.StepDescribes` | utils/validations.ts:2 | one automaton step, on any character, keeps the state's meaning |
| `Email.DescribesDecides` | utils/validations.ts:2 | the state reached after the whole input is accepting exactly when the input is an address of the declarative shape |
| `Email.ValidateEmailIffPattern` | utils/validations.ts:2 | the predicate accepts exactly the strings of the form local + "@" + host + "." + tld, with three non-empty runs of `[^\s@]` |
| `Email.PatternGivesAddress` | utils/validations.ts:2 | every string with the pattern's three-part structure has the declarative shape |
| `Email.AddressGivesPattern` | utils/validations.ts:2 | every string of the declarative shape splits into the pattern's three parts |
| `Email.AcceptedHasOneAtNoSpace` | utils/validations.ts:2 | an accepted address holds exactly one '@' and no `\s` character |
| `Email.TrailingDotKeepsAccepted` | utils/validations.ts:2 | appending '.' to an accepted address keeps it accepted, because the last segment may itself hold dots |
| `Email.EmailRejections` | utils/validations.ts:2 | "", "a@b", "a@b.", "@b.c" and "a b@c.d" are rejected |
| `Email.EmailAcceptances` | utils/validations.ts:2 | "a@b.c" is accepted, and so is "a@b.c." whose last character is a dot |
| `CharClasses.NonWordOrUnderscoreIsNonAlphanumeric` | utils/validations.ts:7 | `[\W_]` is exactly the set of characters outside `[A-Za-z0-9]`, so the underscore counts as special |
| `Password.ValidatePassword` | utils/validations.ts:6-9 | accepted exactly when the input is at least 8 UTF-16 code units long and has a character in `[A-Z]`, an ASCII digit `0-9`, a character outside `[A-Za-z0-9]`, and no line terminator |
| `Password.LookaheadIff` | utils/validations.ts:7 | a lookahead `(?=.*X)` at the start succeeds exactly when a character of class X occurs with no line terminator before it (a terminator that is itself in X counts) |
| `Password.DotRunIff` | utils/validations.ts:7 | `.{8,}$` matches exactly when at least 8 code units remain and none is a line terminator |
| `Password.LookaheadIsContainment` | utils/validations.ts:7 | on input with no line terminator, each lookahead is plain containment of its class |
| `Password.PatternIffStrong` | utils/validations.ts:7 | the three lookaheads together with the counted run accept exactly the strong passwords |
| `Password.LowercaseIrrelevant` | utils/validations.ts:7 | for an input that already holds an upper-case letter, replacing its lower-case letters by upper-case ones never changes the verdict, so lower case is never required |
| `Password.AcceptedWithoutLowercase` | utils/validations.ts:7 | "PASSWORD1!" is accepted without any lower-case letter |
| `Password.AcceptedWithUnderscore` | utils/validations.ts:7 | "PASSWORD1_", whose only special character is '_', is accepted |
| `Password.Utf16LengthExamples` | utils/validations.ts:7 | "A1" followed by three emoji is accepted, because it is 8 code units long; "A1!!!" is too short |
| `CharClasses.SupplementaryLikeSurrogates` | utils/validations.ts:7 | a character outside the Basic Multilingual Plane belongs to each class exactly as its two surrogate units do: not `\s`, not a line terminator, not `\w`, in `[\W_]`, matched by `.` |
| `CharClasses.BmpLength` | utils/validations.ts:7 | on Basic Multilingual Plane text the JavaScript length equals the number of characters |
| `Password.RejectedExamples` | utils/validations.ts:7 | a 7-character input, an input with no upper-case letter, and an input ending in a line feed are rejected |
| `Phone.ValidatePhone` | utils/validations.ts:11-14 | accepted exactly when the input is ten characters, all ASCII digits |
| `Phone.DigitRunIff` | utils/validations.ts:12 | the counted repetition `[0-9]{10}$`, after n digits, matches exactly when the rest is digits and brings the count to exactly ten |
| `Phone.PhoneRejections` | utils/validations.ts:12 | any input whose length is not 10, or that holds '+', ' ' or '-', is rejected |
| `Phone.PhoneExamples` | utils/validations.ts:12 | ten digits are accepted; nine or eleven digits, a "+52" prefix and dashes are rejected |
| `RegExpTest.Test` | utils/validations.ts:3-13 | `test` succeeds only on a full match; without `g` the verdict is the full match and the object is unchanged; with `g` it succeeds exactly when `lastIndex` is 0 and the input matches, and it stores the match end, the input's length in UTF-16 code units, on success and 0 on failure; the pattern and flags never change |
| `RegExpTest.NonGlobalTestKeepsState` | utils/validations.ts:2-3 | `test` on an object without `g` leaves the object unchanged and returns the full-match verdict |
| `RegExpTest.NonGlobalIsPure` | utils/validations.ts:1-14 | even when one object without `g` is reused, each verdict depends only on its own input |
| `RegExpTest.ValidatorsUseLiteral` | utils/validations.ts:1-14 | `test` on each validator's literal returns that validator's declarative verdict |
| `RegExpTest.GlobalWouldNotBePure` | utils/validations.ts:2 | one RegExp object with `g`, reused for two calls, would pass a valid address on the first `test` and fail it on the second; the source never reuses one, since each call evaluates its literal afresh |
| `RegExpTest.GlobalStoresCodeUnitEnd` | utils/validations.ts:2 | with `g`, a successful `test` on an address that starts with a character outside the Basic Multilingual Plane stores a `lastIndex` one larger than the number of characters, because that character counts as two UTF-16 code units |
| `Swipe.Classify` | components/AppointmentCard.tsx:33-38 | a release confirms exactly when dx > 100, cancels exactly when dx < -100, and does nothing exactly when -100 <= dx <= 100, both ends included |
| `Swipe.OnRelease` | components/AppointmentCard.tsx:33-43 | a release fires `onConfirm` once when dx > 100 and otherwise never; it fires `onCancel` once when dx < -100 and otherwise never; it always ends by springing back to (0, 0) |
| `Swipe.ReleaseFollowsClassify` | components/AppointmentCardDoc.tsx:40-45 | no release fires both callbacks, and the callback fired is the one the three-way decision names |
| `Swipe.BoundariesAreInert` | components/AppointmentCardDoc.tsx:41-43 | a release at exactly 100 or -100 only springs back |
| `Swipe.ClassifySymmetric` | components/AppointmentCard.tsx:34-37 | negating the offset exchanges confirm and cancel |
| `Swipe.ClassifyMonotone` | components/AppointmentCardDoc.tsx:41-45 | a larger offset never yields an outcome further toward cancel |
| `AppointmentCard.StatusIndicator` | components/AppointmentCard.tsx:85-88 | the bar is green exactly for "confirmada", red exactly for "cancelada", and yellow otherwise |
| `AppointmentCard.ClassNamesDistinct` | components/AppointmentCard.tsx:85-88 | the three colours are drawn with three different classes |
| `AppointmentCard.UpperCaseIsYellow` | components/AppointmentCard.tsx:86-87 | "CONFIRMADA", "CANCELADA", "COMPLETADA" and "" are yellow |
| `AppointmentCardDoc.DisplayedPaciente` | components/AppointmentCardDoc.tsx:26-29 | an absent patient is shown as "Paciente no especificado" with an empty sex; a present one is shown unchanged; the shown name is empty only when a present patient has an empty name |
| `AppointmentCardDoc.DisplayedPacienteIdempotent` | components/AppointmentCardDoc.tsx:26-29 | substituting the stand-in twice is the same as substituting it once |
| `AppointmentCardDoc.StatusIndicator` | components/AppointmentCardDoc.tsx:92-96 | the bar is `bg-terciary` exactly for "CONFIRMADA", `bg-secondary` exactly for "COMPLETADA", `bg-error` exactly for "CANCELADA", and `bg-yellow-500` otherwise |
| `AppointmentCardDoc.ClassNamesDistinct` | components/AppointmentCardDoc.tsx:92-96 | the four looks are drawn with four different classes, so exactly one class is chosen per status |
| `AppointmentCardDoc.LowerCaseIsYellow` | components/AppointmentCardDoc.tsx:93-95 | the comparison is case-sensitive: "confirmada", "cancelada", "completada" and "PENDIENTE" are yellow |
| `CardComparison.NeverColouredByBoth` | components/AppointmentCardDoc.tsx:93-95 | any status one card gives a colour other than yellow is yellow on the other card |
| `CardComparison.CardsDisagree` | components/AppointmentCard.tsx:86-87 | "confirmada" is green on the patient card and yellow on the doctor card; "CONFIRMADA" is yellow on the patient card and terciary on the doctor card |
| `CardComparison.PatientCardBlindToBackendStatuses` | components/AppointmentCard.tsx:86-87 | as written, the patient card shows every backend status (PENDIENTE, CONFIRMADA, COMPLETADA, CANCELADA) as yellow |
| `CardComparison.CorrectedPatientIndicator` | components/AppointmentCard.tsx:85-88 | the corrected patient bar is green exactly for "CONFIRMADA" and red exactly for "CANCELADA" |
| `CardComparison.CorrectedAgreesWithDoctorCard` | components/AppointmentCardDoc.tsx:92-96 | the corrected patient bar is green exactly where the doctor bar is terciary and red exactly where it is error; among backend statuses only PENDIENTE and COMPLETADA stay yellow |

## Left out

- Strings: the input is the sequence of Unicode scalar values whose UTF-16 encoding is the JavaScript string. Without the `u` flag the source's patterns read code units. A character outside the Basic Multilingual Plane is two surrogate units, and each class treats it as it treats those units; the password's length is counted in code units. So for every well-formed string the verdicts are the source's. A string holding a lone surrogate cannot be written as a Dafny string and is not modelled.
- `Swipe.Classify`: `dx` is a real number; the JavaScript `NaN` and infinities are not modelled. Both comparisons are false for `NaN`, so it would produce no action. Gesture offsets are finite.
- `Animated.spring` physics, `PanResponder` move tracking and `onMoveShouldSetPanResponder`: only the threshold decision and the spring's target are modelled.
- The cards' tap buttons (`onPress={onConfirm}` and `onPress={onCancel}`) call the callbacks directly, with no decision to model.
- Date display with `toLocaleString('es-MX', …)`: it depends on locale data.
- Rendering and styling of the cards, apart from the choice of status class.
- `services/authStorage.ts`: device storage I/O with no logic of its own.
- `components/PatientCard.tsx`: its body-mass index uses floating point; the rest is rendering.
- Other components, `constants/icons.js`, `tailwind.config.js` and the routing files: asset tables, configuration and rendering only.
- Appointment status transitions, prescription creation and dose scheduling: that logic lives in the screens under `app/`, which are not part of this model.

## Findings

| source | as written | input that shows it | evidently intended | confidence | as-written member | corrected member |
|---|---|---|---|---|---|---|
| components/AppointmentCard.tsx:86-87 | the patient card compares `estado` with lower-case 'confirmada' and 'cancelada' | `estado = "CONFIRMADA"`, the backend's spelling used by the doctor screens (`app/(medTabs)/profile.tsx`, lines 21-25) and the admin dashboard, gives `bg-yellow-500` | compare with 'CONFIRMADA' and 'CANCELADA', as the doctor card does | medium, not executed; the screen that renders the patient card is not part of this model | `CardComparison.PatientCardBlindToBackendStatuses` | `CardComparison.CorrectedPatientIndicator` |

=== FILE: appointment_card.dfy ===
/** The patient-facing appointment card: its status bar. Its swipe handler
    is `Swipe.OnRelease`. */
module AppointmentCard {

  /** The three colours of the status bar. */
  datatype Indicator = Green | Red | Yellow

  /** The Tailwind class each colour is drawn with. */
  function ClassName(i: Indicator): string {
    match i
    case Green => "bg-green-500"
    case Red => "bg-red-500"
    case Yellow => "bg-yellow-500"
  }

  /** The status bar, compared case-sensitively against the lower-case
      spellings. */
  function StatusIndicator(estado: string): (i: Indicator)
    ensures i == Green <==> estado == "confirmada"
    ensures i == Red <==> estado == "cancelada"
  {
    if estado == "confirmada" then Green
    else if estado == "cancelada" then Red
    else Yellow
  }

  /** Distinct colours are drawn with distinct classes, so the bar shows
      exactly one of three looks. */
  lemma ClassNamesDistinct(i: Indicator, j: Indicator)
    requires i != j
    ensures ClassName(i) != ClassName(j)
  {
  }

  /** Every string other than the two lower-case spellings is yellow,
      including the upper-case spellings and "COMPLETADA". */
  lemma UpperCaseIsYellow()
    ensures StatusIndicator("CONFIRMADA") == Yellow
    ensures StatusIndicator("CANCELADA") == Yellow
    ensures StatusIndicator("COMPLETADA") == Yellow
    ensures StatusIndicator("") == Yellow
  {
  }
}

=== FILE: appointment_card_doc.dfy ===
/** The doctor-facing appointment card: the patient it shows and its status
    bar. Its swipe handler is `Swipe.OnRelease`. */
module AppointmentCardDoc {
  import opened Wrappers

  /** The patient fields the card shows. */
  datatype Paciente = Paciente(nombre: string, sexo: string)

  /** The record shown when the appointment carries no patient. */
  const Unspecified := Paciente("Paciente no especificado", "")

  /** `appointment.paciente || {...}`: an absent (undefined or null) patient
      is replaced by `Unspecified`; a present one, being an object, is
      truthy and shown as given. */
  function DisplayedPaciente(paciente: Option<Paciente>): (shown: Paciente)
    ensures paciente.Some? ==> shown == paciente.value
    ensures paciente.None? ==> shown == Unspecified
    ensures shown.nombre == [] <==> paciente.Some? && paciente.value.nombre == []
  {
    match paciente
    case Some(p) => p
    case None => Unspecified
  }

  /** Substituting twice changes nothing more than substituting once. */
  lemma DisplayedPacienteIdempotent(paciente: Option<Paciente>)
    ensures DisplayedPaciente(Some(DisplayedPaciente(paciente))) == DisplayedPaciente(paciente)
  {
  }

  /** The four looks of the status bar. */
  datatype Indicator = Terciary | Secondary | Error | Yellow

  /** The Tailwind class each look is drawn with. */
  function ClassName(i: Indicator): string {
    match i
    case Terciary => "bg-terciary"
    case Secondary => "bg-secondary"
    case Error => "bg-error"
    case Yellow => "bg-yellow-500"
  }

  /** The status bar, compared case-sensitively against the upper-case
      spellings. */
  function StatusIndicator(estado: string): (i: Indicator)
    ensures i == Terciary <==> estado == "CONFIRMADA"
    ensures i == Secondary <==> estado == "COMPLETADA"
    ensures i == Error <==> estado == "CANCELADA"
  {
    if estado == "CONFIRMADA" then Terciary
    else if estado == "COMPLETADA" then Secondary
    else if estado == "CANCELADA" then Error
    else Yellow
  }

  /** Distinct looks are drawn with distinct classes, so exactly one class
      is chosen for every status. */
  lemma ClassNamesDistinct(i: Indicator, j: Indicator)
    requires i != j
    ensures ClassName(i) != ClassName(j)
  {
  }

  /** The comparison is case-sensitive: the lower-case spellings are yellow. */
  lemma LowerCaseIsYellow()
    ensures StatusIndicator("confirmada") == Yellow
    ensures StatusIndicator("cancelada") == Yellow
    ensures StatusIndicator("completada") == Yellow
    ensures StatusIndicator("PENDIENTE") == Yellow
  {
  }
}

=== FILE: card_comparison.dfy ===
/** The two cards classify the same status string differently: the patient
    card knows only lower-case spellings, the doctor card only upper-case
    ones. The backend's statuses, as the doctor screens type them, are the
    upper-case PENDIENTE, CONFIRMADA, COMPLETADA and CANCELADA. */
module CardComparison {
  import AppointmentCard
  import AppointmentCardDoc

  /** The statuses the backend reports. */
  const BackendStatuses: set<string> := {"PENDIENTE", "CONFIRMADA", "COMPLETADA", "CANCELADA"}

  /** No status string is given a colour by both cards: whatever one card
      singles out, the other shows as yellow. */
  lemma NeverColouredByBoth(estado: string)
    ensures AppointmentCard.StatusIndicator(estado) != AppointmentCard.Yellow
            ==> AppointmentCardDoc.StatusIndicator(estado) == AppointmentCardDoc.Yellow
    ensures AppointmentCardDoc.StatusIndicator(estado) != AppointmentCardDoc.Yellow
            ==> AppointmentCard.StatusIndicator(estado) == AppointmentCard.Yellow
  {
  }

  /** The same confirmed appointment is green on one card and yellow on the
      other, depending only on the spelling. */
  lemma CardsDisagree()
    ensures AppointmentCard.ClassName(AppointmentCard.StatusIndicator("confirmada")) == "bg-green-500"
    ensures AppointmentCardDoc.ClassName(AppointmentCardDoc.StatusIndicator("confirmada")) == "bg-yellow-500"
    ensures AppointmentCard.ClassName(AppointmentCard.StatusIndicator("CONFIRMADA")) == "bg-yellow-500"
    ensures AppointmentCardDoc.ClassName(AppointmentCardDoc.StatusIndicator("CONFIRMADA")) == "bg-terciary"
  {
  }

  /** As written, the patient card shows every backend status as pending. */
  lemma PatientCardBlindToBackendStatuses(estado: string)
    requires estado in BackendStatuses
    ensures AppointmentCard.StatusIndicator(estado) == AppointmentCard.Yellow
  {
  }

  /** The patient card's status bar with the backend's spellings. */
  function CorrectedPatientIndicator(estado: string): (i: AppointmentCard.Indicator)
    ensures i == AppointmentCard.Green <==> estado == "CONFIRMADA"
    ensures i == AppointmentCard.Red <==> estado == "CANCELADA"
  {
    if estado == "CONFIRMADA" then AppointmentCard.Green
    else if estado == "CANCELADA" then AppointmentCard.Red
    else AppointmentCard.Yellow
  }

  /** The corrected patient card agrees with the doctor card on every
      string: green exactly where the doctor card is terciary, red exactly
      where it is error, and among backend statuses only the pending and
      completed ones are yellow. */
  lemma CorrectedAgreesWithDoctorCard(estado: string)
    ensures CorrectedPatientIndicator(estado) == AppointmentCard.Green
            <==> AppointmentCardDoc.StatusIndicator(estado) == AppointmentCardDoc.Terciary
    ensures CorrectedPatientIndicator(estado) == AppointmentCard.Red
            <==> AppointmentCardDoc.StatusIndicator(estado) == AppointmentCardDoc.Error
    ensures estado in BackendStatuses && CorrectedPatientIndicator(estado) == AppointmentCard.Yellow
            ==> estado == "PENDIENTE" || estado == "COMPLETADA"
  {
  }
}

=== FILE: char_classes.dfy ===
/** The regular-expression character classes the validators use, as explicit
    character sets, following section 22.2 of ECMA-262 for patterns written
    without the `u`, `i`, `m` and `s` flags.

    A Dafny `char` is a Unicode scalar value, and a JavaScript string without
    lone surrogates is the UTF-16 encoding of a sequence of them. Without the
    `u` flag the matcher reads code units, so a character outside the Basic
    Multilingual Plane is read as two surrogate units. Every class below
    treats such a character as it treats each of its surrogates
    (`SupplementaryLikeSurrogates`); only lengths need counting in code
    units (`Utf16Length`). */
module CharClasses {

  /** LineTerminator, section 12.3 of ECMA-262: LF, CR, LINE SEPARATOR and
      PARAGRAPH SEPARATOR. */
  predicate IsLineTerminator(c: char) {
    c == '\n' || c == '\r' || c == '\U{2028}' || c == '\U{2029}'
  }

  /** The code points of Unicode general category Zs (Space_Separator), the
      USP production of section 12.2 of ECMA-262. */
  predicate IsSpaceSeparator(c: char) {
    || c == ' '
    || c == '\U{00A0}'
    || c == '\U{1680}'
    || ('\U{2000}' <= c <= '\U{200A}')
    || c == '\U{202F}'
    || c == '\U{205F}'
    || c == '\U{3000}'
  }

  /** WhiteSpace, section 12.2 of ECMA-262: TAB, VT, FF, ZWNBSP and USP. */
  predicate IsWhiteSpace(c: char) {
    c == '\t' || c == '\U{000B}' || c == '\U{000C}' || c == '\U{FEFF}' || IsSpaceSeparator(c)
  }

  /** `\s`: the union of WhiteSpace and LineTerminator (section 22.2.2.9). */
  predicate IsSpace(c: char) {
    IsWhiteSpace(c) || IsLineTerminator(c)
  }

  /** `\d` and `[0-9]`: the ASCII decimal digits. */
  predicate IsDigit(c: char) {
    '0' <= c <= '9'
  }

  /** `[A-Z]`. */
  predicate IsUpper(c: char) {
    'A' <= c <= 'Z'
  }

  /** `[a-z]`. */
  predicate IsLower(c: char) {
    'a' <= c <= 'z'
  }

  /** `\w` without the `u` and `i` flags: `[A-Za-z0-9_]`. */
  predicate IsWordChar(c: char) {
    IsUpper(c) || IsLower(c) || IsDigit(c) || c == '_'
  }

  /** `[\W_]`: the complement of `\w`, together with the underscore. */
  predicate IsNonWordOrUnderscore(c: char) {
    !IsWordChar(c) || c == '_'
  }

  /** `.` without the `s` flag: every character except a line terminator. */
  predicate MatchesDot(c: char) {
    !IsLineTerminator(c)
  }

  /** `[\W_]` is exactly the set of characters that are not ASCII letters or
      digits; in particular the underscore is a "special" character. */
  lemma NonWordOrUnderscoreIsNonAlphanumeric(c: char)
    ensures IsNonWordOrUnderscore(c) <==> !(IsUpper(c) || IsLower(c) || IsDigit(c))
  {
  }

  /** The number of UTF-16 code units JavaScript stores for `c`. */
  function Utf16Width(c: char): nat {
    if c as int < 0x1_0000 then 1 else 2
  }

  /** The JavaScript `length` of the string whose characters are `s`. */
  function Utf16Length(s: string): nat
    decreases |s|
  {
    if s == [] then 0 else Utf16Width(s[0]) + Utf16Length(s[1..])
  }

  /** A character outside the Basic Multilingual Plane, like each of its two
      surrogate units, is not `\s`, not a line terminator, not `\w`, is in
      `[\W_]` and matches `.`. */
  lemma SupplementaryLikeSurrogates(c: char)
    requires c as int >= 0x1_0000
    ensures !IsSpace(c) && !IsLineTerminator(c) && !IsWordChar(c)
    ensures IsNonWordOrUnderscore(c) && MatchesDot(c)
  {
  }

  /** On Basic Multilingual Plane text the JavaScript length is the number of
      characters. */
  lemma {:induction false} BmpLength(s: string)
    requires forall i :: 0 <= i < |s| ==> s[i] as int < 0x1_0000
    ensures Utf16Length(s) == |s|
    decreases |s|
  {
    if s != [] {
      assert forall i :: 0 <= i < |s| - 1 ==> s[1..][i] == s[i + 1];
      BmpLength(s[1..]);
    }
  }

  /** Strings whose characters have the same widths pointwise have the same
      JavaScript length. */
  lemma {:induction false} SameWidthsSameLength(s: string, t: string)
    requires |s| == |t|
    requires forall i :: 0 <= i < |s| ==> Utf16Width(s[i]) == Utf16Width(t[i])
    ensures Utf16Length(s) == Utf16Length(t)
    decreases |s|
  {
    if s != [] {
      assert forall i :: 0 <= i < |s| - 1 ==> s[1..][i] == s[i + 1] && t[1..][i] == t[i + 1];
      SameWidthsSameLength(s[1..], t[1..]);
    }
  }
}

=== FILE: email.dfy ===
/** `validateEmail` tests its argument against the anchored, non-global
    pattern `^[^\s@]+@[^\s@]+\.[^\s@]+$`.

    The module gives the pattern three readings and proves they agree:
    - `ValidateEmail`, a character-level predicate that runs a deterministic
      automaton obtained from the pattern by the subset construction;
    - `IsEmailAddress`, the declarative reading: a non-empty local part with
      no `\s` and no '@', one '@', and a domain with no `\s` and no '@' that
      has a '.' which is neither its first nor its last character;
    - `MatchesEmailPattern`, the pattern's own structure
      `local + "@" + host + "." + tld` with three non-empty runs of `[^\s@]`. */
module Email {
  import opened CharClasses

  /** `[^\s@]`. */
  predicate IsAddressChar(c: char) {
    !IsSpace(c) && c != '@'
  }

  ghost predicate AllAddressChars(s: string) {
    forall i :: 0 <= i < |s| ==> IsAddressChar(s[i])
  }

  /** The domain has a '.' that is neither its first nor its last character. */
  ghost predicate HasInnerDot(d: string) {
    exists i :: 0 < i < |d| - 1 && d[i] == '.'
  }

  /** The domain ends with a '.' that is not its first character, so that one
      more character would turn it into an inner dot. */
  ghost predicate HasTrailingDot(d: string) {
    |d| >= 2 && d[|d| - 1] == '.'
  }

  /** `s` is a non-empty local part, an '@' at index `k`, and a non-empty
      domain, neither part holding `\s` or '@'. */
  ghost predicate SplitsAt(s: string, k: int) {
    && 0 < k < |s| - 1
    && s[k] == '@'
    && AllAddressChars(s[..k])
    && AllAddressChars(s[k + 1..])
  }

  /** The declarative reading of the pattern. */
  ghost predicate IsEmailAddress(s: string) {
    exists k :: SplitsAt(s, k) && HasInnerDot(s[k + 1..])
  }

  /** `s` is `local`, '@', `host`, '.', `tld`, each part a non-empty run of
      `[^\s@]`. */
  ghost predicate PatternParts(s: string, local: string, host: string, tld: string) {
    && s == local + "@" + host + "." + tld
    && |local| > 0 && |host| > 0 && |tld| > 0
    && AllAddressChars(local) && AllAddressChars(host) && AllAddressChars(tld)
  }

  /** The pattern's own structure: `[^\s@]+ @ [^\s@]+ \. [^\s@]+`. */
  ghost predicate MatchesEmailPattern(s: string) {
    exists local: string, host: string, tld: string :: PatternParts(s, local, host, tld)
  }

  /** States of the automaton. The domain part of the pattern is the
      non-deterministic sequence A = `[^\s@]+`, B = `\.`, C = `[^\s@]+`; since
      '.' is itself in `[^\s@]`, its subset construction has four states:
      Host = {A}, HostDot = {A,B}, Dotted = {A,C}, DottedDot = {A,B,C}. */
  datatype State =
    | Start      // nothing read yet
    | Local      // a non-empty local part
    | At         // the local part and its '@'
    | Host       // a domain without a usable dot
    | HostDot    // a domain whose last character is a usable dot
    | Dotted     // a domain with an inner dot
    | DottedDot  // a domain with an inner dot whose last character is a dot
    | Dead       // no continuation can match

  predicate Accepting(q: State) {
    q == Dotted || q == DottedDot
  }

  /** The domain state recording whether the domain read so far ends with a
      usable dot and whether it already has an inner dot. */
  function HostState(trailingDot: bool, innerDot: bool): State {
    if innerDot then (if trailingDot then DottedDot else Dotted)
    else (if trailingDot then HostDot else Host)
  }

  /** The transition function of the automaton. */
  function Step(q: State, c: char): State {
    match q
    case Start => if IsAddressChar(c) then Local else Dead
    case Local => if c == '@' then At else if IsAddressChar(c) then Local else Dead
    case At => if IsAddressChar(c) then Host else Dead
    case Host => if c == '.' then HostDot else if IsAddressChar(c) then Host else Dead
    case HostDot => if c == '.' then DottedDot else if IsAddressChar(c) then Dotted else Dead
    case Dotted => if c == '.' then DottedDot else if IsAddressChar(c) then Dotted else Dead
    case DottedDot => if c == '.' then DottedDot else if IsAddressChar(c) then Dotted else Dead
    case Dead => Dead
  }

  /** The state reached after reading all of `s`. */
  function Run(s: string): State
    decreases |s|
  {
    if s == [] then Start else Step(Run(s[..|s| - 1]), s[|s| - 1])
  }

  /** `validateEmail`: the character-level predicate. */
  function ValidateEmail(s: string): (ok: bool)
    ensures ok <==> IsEmailAddress(s)
  {
    RunDescribes(s);
    DescribesDecides(Run(s), s);
    Accepting(Run(s))
  }

  /** A prefix that no continuation can turn into an address: it holds a
      `\s` character, starts with '@', or holds two '@'. */
  ghost predicate Hopeless(p: string) {
    || (exists i :: 0 <= i < |p| && IsSpace(p[i]))
    || (|p| > 0 && p[0] == '@')
    || (exists i, j :: 0 <= i < j < |p| && p[i] == '@' && p[j] == '@')
  }

  /** What reaching state `q` after reading `p` means. */
  ghost predicate Describes(q: State, p: string) {
    match q
    case Start => p == []
    case Local => p != [] && AllAddressChars(p)
    case At => |p| >= 2 && p[|p| - 1] == '@' && AllAddressChars(p[..|p| - 1])
    case Dead => Hopeless(p)
    case _ =>
      exists k :: SplitsAt(p, k) && q == HostState(HasTrailingDot(p[k + 1..]), HasInnerDot(p[k + 1..]))
  }

  /** Reading one more domain character: it is a usable trailing dot exactly
      when it is '.', and the old trailing dot becomes an inner dot. */
  lemma DomainExtend(d: string, c: char)
    requires d != []
    ensures HasTrailingDot(d + [c]) <==> c == '.'
    ensures HasInnerDot(d + [c]) <==> HasInnerDot(d) || HasTrailingDot(d)
  {
    var d' := d + [c];
    if HasInnerDot(d') {
      var i :| 0 < i < |d'| - 1 && d'[i] == '.';
      assert d[i] == '.';
      if i < |d| - 1 {
        assert HasInnerDot(d);
      } else {
        assert HasTrailingDot(d);
      }
    }
    if HasInnerDot(d) {
      var i :| 0 < i < |d| - 1 && d[i] == '.';
      assert d'[i] == '.';
    }
    if HasTrailingDot(d) {
      assert d'[|d| - 1] == '.';
    }
  }

  /** On the domain states, a domain character moves the automaton exactly
      as `DomainExtend` moves the two flags. */
  lemma HostStep(t: bool, n: bool, c: char)
    requires IsAddressChar(c)
    ensures Step(HostState(t, n), c) == HostState(c == '.', n || t)
  {
  }

  /** In a split string the '@' at `k` is the only one. */
  lemma AtUnique(s: string, k: int, j: int)
    requires SplitsAt(s, k)
    requires 0 <= j < |s| && s[j] == '@'
    ensures j == k
  {
  }

  /** Every character of a split string other than its '@' is in `[^\s@]`. */
  lemma SplitChars(s: string, k: int, i: int)
    requires SplitsAt(s, k)
    requires 0 <= i < |s| && i != k
    ensures IsAddressChar(s[i])
  {
    if i < k {
      assert s[..k][i] == s[i];
    } else {
      assert s[k + 1..][i - k - 1] == s[i];
    }
  }

  /** No address has a hopeless prefix as its whole text. */
  lemma HopelessRejected(s: string)
    requires Hopeless(s)
    ensures !IsEmailAddress(s)
  {
  }

  /** A hopeless prefix stays hopeless. */
  lemma HopelessExtend(p: string, c: char)
    requires Hopeless(p)
    ensures Hopeless(p + [c])
  {
    var p' := p + [c];
    if i :| 0 <= i < |p| && IsSpace(p[i]) {
      assert p'[i] == p[i];
    } else if |p| > 0 && p[0] == '@' {
      assert p'[0] == p[0];
    } else {
      var i, j :| 0 <= i < j < |p| && p[i] == '@' && p[j] == '@';
      assert p'[i] == p[i] && p'[j] == p[j];
    }
  }

  /** Reading a bad character makes the prefix hopeless. */
  lemma BadCharHopeless(p: string, c: char, at: int)
    requires IsSpace(c) || (c == '@' && ((p == [] && at == 0) || (0 <= at < |p| && p[at] == '@')))
    ensures Hopeless(p + [c])
  {
    var p' := p + [c];
    assert p'[|p|] == c;
    if !IsSpace(c) && p != [] {
      assert p'[at] == p[at];
    }
  }

  /** One step from the states before the '@'. */
  lemma StepDescribesLocalPart(q: State, p: string, c: char)
    requires q == Start || q == Local || q == At
    requires Describes(q, p)
    ensures Describes(Step(q, c), p + [c])
  {
    var p' := p + [c];
    if q == Start {
      if !IsAddressChar(c) {
        BadCharHopeless(p, c, 0);
      }
    } else if q == Local {
      if c == '@' {
        assert p'[..|p'| - 1] == p;
      } else if !IsAddressChar(c) {
        BadCharHopeless(p, c, 0);
      } else {
        assert forall i :: 0 <= i < |p| ==> p'[i] == p[i];
      }
    } else {
      var k := |p| - 1;
      if IsAddressChar(c) {
        assert p'[..k] == p[..k];
        assert p'[k + 1..] == [c];
        assert SplitsAt(p', k);
      } else {
        BadCharHopeless(p, c, k);
      }
    }
  }

  /** One step from a domain state. */
  lemma StepDescribesDomain(q: State, p: string, c: char)
    requires q in {Host, HostDot, Dotted, DottedDot}
    requires Describes(q, p)
    ensures Describes(Step(q, c), p + [c])
  {
    var p' := p + [c];
    var k :| SplitsAt(p, k) && q == HostState(HasTrailingDot(p[k + 1..]), HasInnerDot(p[k + 1..]));
    var d := p[k + 1..];
    if IsAddressChar(c) {
      assert p'[..k] == p[..k];
      assert p'[k + 1..] == d + [c];
      assert AllAddressChars(d + [c]) by {
        assert forall i :: 0 <= i < |d| ==> (d + [c])[i] == d[i];
      }
      assert SplitsAt(p', k);
      DomainExtend(d, c);
      HostStep(HasTrailingDot(d), HasInnerDot(d), c);
    } else {
      BadCharHopeless(p, c, k);
    }
  }

  /** The automaton keeps its meaning: one step preserves `Describes`. */
  lemma StepDescribes(q: State, p: string, c: char)
    requires Describes(q, p)
    ensures Describes(Step(q, c), p + [c])
  {
    if q == Dead {
      HopelessExtend(p, c);
    } else if q == Start || q == Local || q == At {
      StepDescribesLocalPart(q, p, c);
    } else {
      StepDescribesDomain(q, p, c);
    }
  }

  /** After reading the whole input, the state decides acceptance. */
  lemma DescribesDecides(q: State, s: string)
    requires Describes(q, s)
    ensures Accepting(q) <==> IsEmailAddress(s)
  {
    if q == Dead {
      HopelessRejected(s);
    } else if IsEmailAddress(s) && q in {Host, HostDot, Dotted, DottedDot} {
      var k :| SplitsAt(s, k) && q == HostState(HasTrailingDot(s[k + 1..]), HasInnerDot(s[k + 1..]));
      var j :| SplitsAt(s, j) && HasInnerDot(s[j + 1..]);
      AtUnique(s, k, j);
    }
  }

  lemma {:induction false} RunDescribes(s: string)
    ensures Describes(Run(s), s)
    decreases |s|
  {
    if s != [] {
      var p := s[..|s| - 1];
      RunDescribes(p);
      StepDescribes(Run(p), p, s[|s| - 1]);
      assert p + [s[|s| - 1]] == s;
    }
  }

  /** A string with the pattern's structure has the declarative shape. */
  lemma PatternGivesAddress(s: string)
    requires MatchesEmailPattern(s)
    ensures IsEmailAddress(s)
  {
    var local: string, host: string, tld: string :| PatternParts(s, local, host, tld);
    var k := |local|;
    var d := host + "." + tld;
    assert s == local + "@" + d;
    assert s[..k] == local;
    assert s[k + 1..] == d;
    assert d[|host|] == '.';
    forall i | 0 <= i < |d|
      ensures IsAddressChar(d[i])
    {
      if i < |host| {
        assert d[i] == host[i];
      } else if i > |host| {
        assert d[i] == tld[i - |host| - 1];
      }
    }
    assert SplitsAt(s, k);
  }

  /** A slice of a run of `[^\s@]` is a run of `[^\s@]`. */
  lemma SliceAddressChars(d: string, a: int, b: int)
    requires AllAddressChars(d)
    requires 0 <= a <= b <= |d|
    ensures AllAddressChars(d[a..b])
  {
    assert forall j :: 0 <= j < b - a ==> d[a..b][j] == d[a + j];
  }

  /** A string cut at index `k` and again `i` positions after it is the
      concatenation of its five pieces. */
  lemma Reassemble(s: string, k: int, i: int)
    requires 0 <= k && k + 1 + i < |s| && 0 <= i
    requires s[k] == '@' && s[k + 1 + i] == '.'
    ensures s == s[..k] + "@" + s[k + 1..][..i] + "." + s[k + 1..][i + 1..]
  {
    var d := s[k + 1..];
    assert d == d[..i] + "." + d[i + 1..];
    assert s == s[..k] + "@" + d;
  }

  /** A string of the declarative shape has the pattern's structure: the
      host is the domain up to an inner dot, the top-level part the rest. */
  lemma AddressGivesPattern(s: string)
    requires IsEmailAddress(s)
    ensures MatchesEmailPattern(s)
  {
    var k :| SplitsAt(s, k) && HasInnerDot(s[k + 1..]);
    var d := s[k + 1..];
    var i :| 0 < i < |d| - 1 && d[i] == '.';
    Reassemble(s, k, i);
    SliceAddressChars(d, 0, i);
    SliceAddressChars(d, i + 1, |d|);
    assert d[0..i] == d[..i];
    assert PatternParts(s, s[..k], d[..i], d[i + 1..]);
  }

  /** The character-level predicate accepts exactly the strings with the
      pattern's structure. */
  lemma ValidateEmailIffPattern(s: string)
    ensures ValidateEmail(s) <==> MatchesEmailPattern(s)
  {
    if MatchesEmailPattern(s) {
      PatternGivesAddress(s);
    }
    if ValidateEmail(s) {
      AddressGivesPattern(s);
    }
  }

  /** An accepted address holds exactly one '@' and no `\s` character. */
  lemma AcceptedHasOneAtNoSpace(s: string)
    requires ValidateEmail(s)
    ensures exists k :: 0 <= k < |s| && s[k] == '@' && forall j :: 0 <= j < |s| && s[j] == '@' ==> j == k
    ensures forall i :: 0 <= i < |s| ==> !IsSpace(s[i])
  {
    var k :| SplitsAt(s, k) && HasInnerDot(s[k + 1..]);
    forall j | 0 <= j < |s| && s[j] == '@'
      ensures j == k
    {
      AtUnique(s, k, j);
    }
    forall i | 0 <= i < |s| && i != k
      ensures !IsSpace(s[i])
    {
      SplitChars(s, k, i);
    }
  }

  /** Appending '.' to an accepted address keeps it accepted: the last
      segment of the pattern may itself contain dots. */
  lemma TrailingDotKeepsAccepted(s: string)
    requires ValidateEmail(s)
    ensures ValidateEmail(s + ".")
  {
  }

  /** Inputs the pattern rejects: the empty string, a domain without a dot,
      a domain whose only dot is its last character, an empty local part,
      and a space. */
  lemma EmailRejections()
    ensures !ValidateEmail("")
    ensures !ValidateEmail("a@b")
    ensures !ValidateEmail("a@b.")
    ensures !ValidateEmail("@b.c")
    ensures !ValidateEmail("a b@c.d")
  {
    assert IsSpace(' ');
    assert "a b@c.d"[1] == ' ';
  }

  /** Inputs the pattern accepts, one of them with a dot as its last
      character. */
  lemma EmailAcceptances()
    ensures ValidateEmail("a@b.c")
    ensures ValidateEmail("a@b.c.")
  {
    var good := "a@b.c";
    assert good[..1] == "a" && good[2..] == "b.c";
    assert good[2..][1] == '.';
    assert SplitsAt(good, 1) && HasInnerDot(good[2..]);
    TrailingDotKeepsAccepted(good);
    assert good + "." == "a@b.c.";
  }
}

=== FILE: password.dfy ===
/** `validatePassword` tests its argument against the anchored, non-global
    pattern `^(?=.*[A-Z])(?=.*\d)(?=.*[\W_]).{8,}$`: three lookaheads at the
    start of the input, then at least eight non-line-terminator code units
    running to the end of the input (no `m` flag, so `$` is the end). */
module Password {
  import opened CharClasses

  /** The class each lookahead searches for. */
  datatype Requirement = Uppercase | Digit | Special

  /** `[A-Z]`, `\d` and `[\W_]`. */
  predicate Satisfies(r: Requirement, c: char) {
    match r
    case Uppercase => IsUpper(c)
    case Digit => IsDigit(c)
    case Special => IsNonWordOrUnderscore(c)
  }

  /** The lookahead `(?=.*X)` at the start of `s`: `.*` may cross any run of
      non-line-terminators, so it succeeds when a character of class X comes
      before the first line terminator (or is that line terminator). */
  function Lookahead(r: Requirement, s: string): bool
    decreases |s|
  {
    if s == [] then false
    else if Satisfies(r, s[0]) then true
    else if IsLineTerminator(s[0]) then false
    else Lookahead(r, s[1..])
  }

  /** `.{8,}$` after `n` code units already matched; `.` consumes each
      surrogate of a character outside the Basic Multilingual Plane. */
  function DotRun(s: string, n: nat): bool
    decreases |s|
  {
    if s == [] then n >= 8 else MatchesDot(s[0]) && DotRun(s[1..], n + Utf16Width(s[0]))
  }

  /** `validatePassword`: the character-level predicate. */
  function ValidatePassword(s: string): (ok: bool)
    ensures ok <==> IsStrongPassword(s)
  {
    PatternIffStrong(s);
    Lookahead(Uppercase, s) && Lookahead(Digit, s) && Lookahead(Special, s) && DotRun(s, 0)
  }

  ghost predicate Contains(r: Requirement, s: string) {
    exists i :: 0 <= i < |s| && Satisfies(r, s[i])
  }

  ghost predicate NoLineTerminator(s: string) {
    forall i :: 0 <= i < |s| ==> !IsLineTerminator(s[i])
  }

  /** The declarative reading: at least eight UTF-16 code units, a
      character in `[A-Z]`, an ASCII digit `0-9`, a character that is not an
      ASCII letter or digit, and no line terminator. Lower-case letters are
      not required. */
  ghost predicate IsStrongPassword(s: string) {
    && Utf16Length(s) >= 8
    && Contains(Uppercase, s)
    && Contains(Digit, s)
    && Contains(Special, s)
    && NoLineTerminator(s)
  }

  /** Index `i` holds a character of class `r` and no line terminator comes
      before it. */
  ghost predicate FoundBeforeBreak(r: Requirement, s: string, i: int) {
    && 0 <= i < |s|
    && Satisfies(r, s[i])
    && forall j :: 0 <= j < i ==> !IsLineTerminator(s[j])
  }

  /** The lookahead scan succeeds exactly when its class occurs before the
      first line terminator. */
  lemma {:induction false} LookaheadIff(r: Requirement, s: string)
    ensures Lookahead(r, s) <==> exists i :: FoundBeforeBreak(r, s, i)
    decreases |s|
  {
    if s != [] && !Satisfies(r, s[0]) && !IsLineTerminator(s[0]) {
      var t := s[1..];
      LookaheadIff(r, t);
      if i :| FoundBeforeBreak(r, t, i) {
        assert FoundBeforeBreak(r, s, i + 1) by {
          assert forall j :: 1 <= j < i + 1 ==> s[j] == t[j - 1];
        }
      }
      if i :| FoundBeforeBreak(r, s, i) {
        assert i > 0;
        assert FoundBeforeBreak(r, t, i - 1) by {
          assert forall j :: 0 <= j < i - 1 ==> t[j] == s[j + 1];
        }
      }
    } else if s != [] && Satisfies(r, s[0]) {
      assert FoundBeforeBreak(r, s, 0);
    }
  }

  /** The counted run succeeds exactly when the input brings the count to
      eight and holds no line terminator. */
  lemma {:induction false} DotRunIff(s: string, n: nat)
    ensures DotRun(s, n) <==> n + Utf16Length(s) >= 8 && NoLineTerminator(s)
    decreases |s|
  {
    if s != [] {
      DotRunIff(s[1..], n + Utf16Width(s[0]));
      assert forall j :: 1 <= j < |s| ==> s[j] == s[1..][j - 1];
    }
  }

  /** With no line terminator in the input, each lookahead is plain
      containment. */
  lemma LookaheadIsContainment(r: Requirement, s: string)
    requires NoLineTerminator(s)
    ensures Lookahead(r, s) <==> Contains(r, s)
  {
  }

  /** The lookaheads and the counted run together accept exactly the strong
      passwords. */
  lemma PatternIffStrong(s: string)
    ensures (Lookahead(Uppercase, s) && Lookahead(Digit, s) && Lookahead(Special, s) && DotRun(s, 0))
            <==> IsStrongPassword(s)
  {
    DotRunIff(s, 0);
    if NoLineTerminator(s) {
      LookaheadIsContainment(Uppercase, s);
      LookaheadIsContainment(Digit, s);
      LookaheadIsContainment(Special, s);
    }
  }

  /** A lower-case letter is never required: replacing every lower-case
      letter by an upper-case one does not change the verdict. */
  lemma {:induction false} LowercaseIrrelevant(s: string, t: string)
    requires |s| == |t|
    requires forall i :: 0 <= i < |s| && IsLower(s[i]) ==> IsUpper(t[i])
    requires forall i :: 0 <= i < |s| && !IsLower(s[i]) ==> t[i] == s[i]
    requires exists i :: 0 <= i < |s| && IsUpper(s[i])
    ensures ValidatePassword(s) <==> ValidatePassword(t)
  {
    forall i | 0 <= i < |s|
      ensures Utf16Width(s[i]) == Utf16Width(t[i])
    {
      if IsLower(s[i]) {
        assert IsUpper(t[i]);
      }
    }
    SameWidthsSameLength(s, t);
  }

  /** A password of upper-case letters, a digit and a punctuation mark is
      accepted: no lower-case letter is needed. */
  lemma AcceptedWithoutLowercase()
    ensures ValidatePassword("PASSWORD1!")
  {
    var upper := "PASSWORD1!";
    assert Satisfies(Uppercase, upper[0]) && Satisfies(Digit, upper[8]) && Satisfies(Special, upper[9]);
    assert NoLineTerminator(upper);
    BmpLength(upper);
    assert IsStrongPassword(upper);
  }

  /** A password whose only special character is '_' is accepted. */
  lemma AcceptedWithUnderscore()
    ensures ValidatePassword("PASSWORD1_")
  {
    var under := "PASSWORD1_";
    assert Satisfies(Uppercase, under[0]) && Satisfies(Digit, under[8]) && Satisfies(Special, under[9]);
    assert NoLineTerminator(under);
    BmpLength(under);
    assert IsStrongPassword(under);
  }

  /** Seven characters are too few, an upper-case letter is required, and a
      trailing line feed is not matched by `.` before `$`. */
  lemma RejectedExamples()
    ensures !ValidatePassword("Pass1!x")
    ensures !ValidatePassword("password1!")
    ensures !ValidatePassword("Password1!\n")
  {
    var short := "Pass1!x";
    BmpLength(short);
    var broken := "Password1!\n";
    assert IsLineTerminator(broken[10]);
    var lower := "password1!";
    assert forall i :: 0 <= i < |lower| ==> !IsUpper(lower[i]);
  }

  /** Length is counted in UTF-16 code units: five characters, three of them
      outside the Basic Multilingual Plane, make eight code units and are
      accepted, while the same count of Basic Multilingual Plane characters
      is too short. */
  lemma Utf16LengthExamples()
    ensures ValidatePassword("A1\U{1F600}\U{1F600}\U{1F600}")
    ensures !ValidatePassword("A1!!!")
  {
    var wide := "A1\U{1F600}\U{1F600}\U{1F600}";
    SupplementaryLikeSurrogates(wide[2]);
    assert Satisfies(Uppercase, wide[0]) && Satisfies(Digit, wide[1]) && Satisfies(Special, wide[2]);
    assert NoLineTerminator(wide);
    assert Utf16Length(wide) == 8;
    var narrow := "A1!!!";
    BmpLength(narrow);
  }
}

=== FILE: phone.dfy ===
/** `validatePhone` tests its argument against the anchored, non-global
    pattern `^[0-9]{10}$`. */
module Phone {
  import opened CharClasses

  /** The counted repetition `[0-9]{10}$` after `n` digits already matched. */
  function DigitRun(s: string, n: nat): bool
    decreases |s|
  {
    if s == [] then n == 10 else n < 10 && IsDigit(s[0]) && DigitRun(s[1..], n + 1)
  }

  /** `validatePhone`: the character-level predicate. */
  function ValidatePhone(s: string): (ok: bool)
    ensures ok <==> IsPhoneNumber(s)
  {
    DigitRunIff(s, 0);
    DigitRun(s, 0)
  }

  ghost predicate AllDigits(s: string) {
    forall i :: 0 <= i < |s| ==> IsDigit(s[i])
  }

  /** The declarative reading: exactly ten ASCII digits. */
  ghost predicate IsPhoneNumber(s: string) {
    |s| == 10 && AllDigits(s)
  }

  /** The counted run succeeds exactly when the rest of the input is digits
      and brings the count to exactly ten. */
  lemma {:induction false} DigitRunIff(s: string, n: nat)
    ensures DigitRun(s, n) <==> n + |s| == 10 && AllDigits(s)
    decreases |s|
  {
    if s != [] {
      DigitRunIff(s[1..], n + 1);
      assert forall j :: 1 <= j < |s| ==> s[j] == s[1..][j - 1];
    }
  }

  /** A string of the wrong length, or one holding '+', ' ' or '-', is never
      a phone number. */
  lemma PhoneRejections(s: string)
    ensures |s| != 10 ==> !ValidatePhone(s)
    ensures ('+' in s || ' ' in s || '-' in s) ==> !ValidatePhone(s)
  {
  }

  /** Inputs the pattern accepts and rejects. */
  lemma PhoneExamples()
    ensures ValidatePhone("5512345678")
    ensures !ValidatePhone("551234567")
    ensures !ValidatePhone("55123456789")
    ensures !ValidatePhone("+525512345678")
    ensures !ValidatePhone("55-1234-567")
  {
  }
}

=== FILE: regexp_test.dfy ===
/** Why the validators are pure. Each declares its regular-expression
    literal inside its own body, so every call evaluates the literal afresh
    and tests a new RegExp object whose `lastIndex` is 0 (`Literal`). And
    none of the literals has the `g` flag, so even one object reused across
    calls would carry no state from one to the next. This module models the part
    of a RegExp object that `test` reads and writes, following
    `RegExp.prototype.test` and RegExpBuiltinExec (sections 22.2.6.16 and
    22.2.7.2 of ECMA-262), for patterns anchored by `^` and `$` and written
    without the `m` and `y` flags, as all three validators' patterns are. */
module RegExpTest {
  import Email
  import Password
  import Phone
  import opened CharClasses

  /** The three validator patterns. */
  datatype Pattern = EmailPattern | PasswordPattern | PhonePattern

  /** Whether the pattern matches the whole input from index 0, which for a
      `^...$` pattern is the only place a match can start. */
  function FullMatch(p: Pattern, s: string): bool {
    match p
    case EmailPattern => Email.ValidateEmail(s)
    case PasswordPattern => Password.ValidatePassword(s)
    case PhonePattern => Phone.ValidatePhone(s)
  }

  /** A RegExp object as `test` sees it: its pattern, its `g` flag and its
      `lastIndex` property. */
  datatype RegExp = RegExp(pattern: Pattern, global: bool, lastIndex: nat)

  /** The literal a validator evaluates on each call: no flags, `lastIndex` 0. */
  function Literal(p: Pattern): RegExp {
    RegExp(p, false, 0)
  }

  /** `re.test(s)`: the verdict and the object afterwards. Without `g` the
      search starts at 0: `lastIndex` is read and ignored, never written.
      With `g` the search starts at `lastIndex`, where `^` can match only if
      it is 0; a success stores the match end, the input's length in UTF-16
      code units, and a failure stores 0. */
  function Test(re: RegExp, s: string): (r: (bool, RegExp))
    ensures r.0 ==> FullMatch(re.pattern, s)
    ensures !re.global ==> r.0 == FullMatch(re.pattern, s) && r.1 == re
    ensures r.1.pattern == re.pattern && r.1.global == re.global
    ensures re.global ==> (r.0 <==> re.lastIndex == 0 && FullMatch(re.pattern, s))
    ensures re.global ==> r.1.lastIndex == (if r.0 then Utf16Length(s) else 0)
  {
    if !re.global then (FullMatch(re.pattern, s), re)
    else if re.lastIndex > Utf16Length(s) then (false, re.(lastIndex := 0))
    else if re.lastIndex == 0 && FullMatch(re.pattern, s) then (true, re.(lastIndex := Utf16Length(s)))
    else (false, re.(lastIndex := 0))
  }

  /** The verdicts of testing `inputs` in turn against one object. */
  function TestAll(re: RegExp, inputs: seq<string>): (verdicts: seq<bool>)
    ensures |verdicts| == |inputs|
    decreases |inputs|
  {
    if inputs == [] then []
    else
      var (verdict, next) := Test(re, inputs[0]);
      [verdict] + TestAll(next, inputs[1..])
  }

  /** A single `test` on a non-global object leaves the object as it was. */
  lemma NonGlobalTestKeepsState(re: RegExp, s: string)
    requires !re.global
    ensures Test(re, s).1 == re
    ensures Test(re, s).0 == FullMatch(re.pattern, s)
  {
  }

  /** Even when one non-global object is reused, every verdict depends only
      on its own input: no state carries from one call to the next. */
  lemma {:induction false} NonGlobalIsPure(re: RegExp, inputs: seq<string>)
    requires !re.global
    ensures forall i :: 0 <= i < |inputs| ==> TestAll(re, inputs)[i] == FullMatch(re.pattern, inputs[i])
    decreases |inputs|
  {
    if inputs != [] {
      NonGlobalIsPure(re, inputs[1..]);
      assert TestAll(re, inputs) == [FullMatch(re.pattern, inputs[0])] + TestAll(re, inputs[1..]);
    }
  }

  /** The validators' verdict is the pattern's full match. */
  lemma ValidatorsUseLiteral(s: string)
    ensures Test(Literal(EmailPattern), s).0 == Email.IsEmailAddress(s)
    ensures Test(Literal(PasswordPattern), s).0 == Password.IsStrongPassword(s)
    ensures Test(Literal(PhonePattern), s).0 == Phone.IsPhoneNumber(s)
  {
  }

  /** With the `g` flag a shared object would not be pure: the same valid
      address passes the first `test` and fails the second. */
  lemma GlobalWouldNotBePure()
    ensures TestAll(RegExp(EmailPattern, true, 0), ["a@b.co", "a@b.co"]) == [true, false]
  {
    var s := "a@b.co";
    assert s[..1] == "a" && s[2..] == "b.co" && s[2..][1] == '.';
    assert Email.SplitsAt(s, 1) && Email.HasInnerDot(s[2..]);
    BmpLength(s);
    var first := Test(RegExp(EmailPattern, true, 0), s);
    assert first == (true, RegExp(EmailPattern, true, 6));
    assert Test(first.1, s) == (false, RegExp(EmailPattern, true, 0));
    assert ["a@b.co", "a@b.co"][1..] == [s];
  }

  /** With `g`, `lastIndex` advances by the match's length in UTF-16 code
      units: an address starting with an emoji of two code units stores 6. */
  lemma GlobalStoresCodeUnitEnd()
    ensures Test(RegExp(EmailPattern, true, 0), "\U{1F600}@b.c") == (true, RegExp(EmailPattern, true, 6))
  {
    var s := "\U{1F600}@b.c";
    SupplementaryLikeSurrogates(s[0]);
    assert s[..1] == [s[0]] && s[2..] == "b.c" && s[2..][1] == '.';
    assert Email.SplitsAt(s, 1) && Email.HasInnerDot(s[2..]);
    assert Utf16Length(s) == 6;
  }
}

=== FILE: swipe.dfy ===
/** The swipe-release handler `onPanResponderRelease`, which both
    appointment cards carry in identical form: a horizontal release offset
    `dx` past +100 confirms, past -100 cancels, and in every case the card
    springs back to the origin. `dx` is a JavaScript number, modelled as a
    real. */
module Swipe {

  /** The offset a release must pass, in either direction. */
  const Threshold: real := 100.0

  /** What a release decides. */
  datatype Action = Confirm | Cancel | NoAction

  /** The three-way decision on release. */
  function Classify(dx: real): (a: Action)
    ensures a == Confirm <==> dx > Threshold
    ensures a == Cancel <==> dx < -Threshold
    ensures a == NoAction <==> -Threshold <= dx <= Threshold
  {
    if dx > Threshold then Confirm
    else if dx < -Threshold then Cancel
    else NoAction
  }

  /** What the handler does, in order: the callbacks it invokes and the
      spring animation it starts. */
  datatype Effect = CallConfirm | CallCancel | SpringTo(x: real, y: real)

  /** `onPanResponderRelease`: at most one callback, then the spring back
      to (0, 0). */
  function OnRelease(dx: real): (effects: seq<Effect>)
    ensures |effects| >= 1 && effects[|effects| - 1] == SpringTo(0.0, 0.0)
    ensures multiset(effects)[CallConfirm] == (if dx > Threshold then 1 else 0)
    ensures multiset(effects)[CallCancel] == (if dx < -Threshold then 1 else 0)
    ensures forall i :: 0 <= i < |effects| - 1 ==> !effects[i].SpringTo?
  {
    var callbacks := match Classify(dx)
      case Confirm => [CallConfirm]
      case Cancel => [CallCancel]
      case NoAction => [];
    callbacks + [SpringTo(0.0, 0.0)]
  }

  /** No release invokes both callbacks, and the callback invoked is the one
      `Classify` names. */
  lemma ReleaseFollowsClassify(dx: real)
    ensures multiset(OnRelease(dx))[CallConfirm] + multiset(OnRelease(dx))[CallCancel] <= 1
    ensures multiset(OnRelease(dx))[CallConfirm] == 1 <==> Classify(dx) == Confirm
    ensures multiset(OnRelease(dx))[CallCancel] == 1 <==> Classify(dx) == Cancel
  {
  }

  /** Both thresholds are exclusive: a release at exactly ±100 does nothing
      but spring back. */
  lemma BoundariesAreInert()
    ensures OnRelease(100.0) == [SpringTo(0.0, 0.0)]
    ensures OnRelease(-100.0) == [SpringTo(0.0, 0.0)]
  {
  }

  /** The decision with left and right exchanged. */
  function Mirror(a: Action): Action {
    match a
    case Confirm => Cancel
    case Cancel => Confirm
    case NoAction => NoAction
  }

  /** The decision is symmetric about zero. */
  lemma ClassifySymmetric(dx: real)
    ensures Classify(-dx) == Mirror(Classify(dx))
  {
  }

  /** Cancel, no action, confirm, in increasing order of offset. */
  function Rank(a: Action): int {
    match a
    case Cancel => 0
    case NoAction => 1
    case Confirm => 2
  }

  /** The decision is monotone in the offset. */
  lemma ClassifyMonotone(dx: real, dy: real)
    requires dx <= dy
    ensures Rank(Classify(dx)) <= Rank(Classify(dy))
  {
  }
}

=== FILE: wrappers.dfy ===
/** Wrapper types shared by the model. */
module Wrappers {

  /** A value that may be absent, as a TypeScript optional property (`x?: T`). */
  datatype Option<+T> = None | Some(value: T)
}
